=== FILE: README.md ===
# PowerStore host reconciliation, modelled in Dafny

This project models the decision logic of the PowerStore `host` Ansible module
(`plugins/modules/host.py`). A host is a named initiator group on the array.
One run of the module takes the desired host described by the module
parameters and the host as the array reports it. It decides which requests to
send to the array (create, add initiators, remove initiators, modify, delete)
and whether anything changed.

The model is a set of pure functions over immutable datatypes:

- `HostTypes` holds the data model: the parameters (`Params`), detailed
  initiators, the host as reported (`ObservedHost`), the lookup answer
  (`Lookup`), the requests (`Op`), the errors (`Error`) and the pass result
  (`Outcome`).
  - `initiators` and `detailed_initiators` are mutually exclusive, so they
    become one `Request` value.
  - Python truthiness is written out: `Truthy`, `Given`.
- `Classifier` classifies port names by prefix. `iqn` is iSCSI, then `nqn` is
  NVMe, and anything else is FC.
- `Differ` holds `_get_add_initiators` and `_get_remove_initiators` over port
  names.
- `Validator` holds `validate_initiators`.
- `Steps` holds the per-step decisions: `create_host`, `add_host_initiators`,
  `remove_host_initiators` and `is_modify_required`.
- `Planner` holds `perform_module_operation`. A pass returns either the error
  that stops it or the requests in issue order together with `changed`.
  `changed` is the OR of the step results.
- `Repository` is a model of the array: hosts by id, what its lookups report,
  and what each request does. It exists only to give meaning to the requests.
- `Convergence` proves that a second pass with the same parameters, run after
  the first pass's requests are applied, issues nothing and reports no change.
- `Scenarios` holds concrete passes: typical requests and the edge cases the
  code has.

The remote array is never called. The lookup answer is an input to the
planner, and the requests the array would receive are the planner's output.

In these places the code's behaviour is easy to misread; the model follows
the code:

- The protocol-mix check exists only on the plain `initiators` create path.
  The `detailed_initiators` create path has no mix check
  (plugins/modules/host.py:471-518).
- A `host_id` that names no host is not treated as an absent host. The module
  either fails in `get_host`, when the SDK raises
  (plugins/modules/host.py:423-433), or, when the SDK returns nothing,
  indexes the missing host and crashes (plugins/modules/host.py:738-740).
  The model makes this a precondition, `LookupConsistent`.
- The modify step is entered on a non-empty `new_name` or a supplied
  connectivity. The difference check then treats an empty `new_name` as a
  supplied value (plugins/modules/host.py:799-803, 819). So an empty
  `new_name` together with a connectivity asks the array for a rename to the
  empty string.
- The add step re-types detailed initiators by prefix and ignores the explicit
  `port_type`. It copies CHAP fields only for `iqn` names. The create path
  keeps an explicit `port_type` and the CHAP fields as given. Validation
  happens before typing and looks only at the caller's `port_type`, so a WWN
  with a CHAP username and no `port_type` reaches the create request with its
  CHAP fields (`Scenarios.UntypedChapReachesCreate`).

## Model

| member | source | states |
|---|---|---|
| Classifier.Classify | plugins/modules/host.py:477-485 | A name is iSCSI exactly when it starts with `i`,`q`,`n`. It is NVMe exactly when it starts with `n`,`q`,`n`. Every other name is FC. |
| Classifier.ClassifyPrecedenceIrrelevant | plugins/modules/host.py:583-598 | No name has both prefixes, so testing `nqn` before `iqn` gives the same type for every name. |
| Classifier.ClassifyByPrefixOnly | plugins/modules/host.py:605-612 | Only the first three characters decide the type. Well-formedness is never checked. |
| Differ.AddSet | plugins/modules/host.py:529-532 | The add set is requested minus existing. It is disjoint from existing, and its union with existing covers everything requested. |
| Differ.RemoveSet | plugins/modules/host.py:534-536 | The remove set is existing intersected with requested. It is a subset of both and contains every name that is in both. |
| Differ.AddNames | plugins/modules/host.py:531 | The list sent to the array holds exactly the elements of the add set, each once. |
| Differ.RemoveNames | plugins/modules/host.py:535 | The list sent to the array holds exactly the elements of the remove set, each once. |
| Differ.DifferDegenerateCases | plugins/modules/host.py:529-536 | Requesting exactly what exists adds nothing. Requesting nothing removes nothing. |
| Differ.AddSetEmptyIffSubset | plugins/modules/host.py:551-566 | The add set is empty exactly when every requested name is already present. This is the condition of the add step's subset short-circuit. |
| Differ.AddThenDiffer | plugins/modules/host.py:529-536 | Once the added names are merged in, a second add finds nothing, and the remove set is everything requested. |
| Differ.RemoveThenDiffer | plugins/modules/host.py:534-536 | Once the removed names are taken out, nothing requested is left to remove. |
| Validator.Validate | plugins/modules/host.py:699-712 | Validation passes exactly when no entry has a non-empty single or mutual CHAP username with an explicit FC or NVMe `port_type`. Otherwise the error names the protocol of the first such entry. An unset `port_type` always passes. |
| Validator.ValidateAcceptsIscsiChap | plugins/modules/host.py:703-712 | A list whose entries are all typed iSCSI or left untyped passes, whatever their CHAP fields hold. The reported error never names iSCSI. |
| Steps.CreateStep | plugins/modules/host.py:455-527 | Create fails exactly when `os_type` is missing, or when the plain initiators include iSCSI, FC and NVMe all together. Any two-protocol mix passes. Otherwise it issues one create request for the name, os type and connectivity, carrying the requested names in order. Plain names are typed by prefix and carry no CHAP. Detailed entries keep an explicit type, get an inferred one when unset, and keep their CHAP usernames and passwords. |
| Steps.AddList | plugins/modules/host.py:568-613 | The typed add list names exactly the add set. Every entry is typed by its prefix, and CHAP fields appear only on `iqn` names. Plain names appear once each. Every detailed entry with a new name appears, and nothing else does. |
| Steps.AddStep | plugins/modules/host.py:538-630 | No request is issued exactly when all requested names are already on the host. Otherwise one non-empty add request goes to that host, naming exactly requested minus existing, typed by prefix, with CHAP only on `iqn` names. For detailed initiators the request holds exactly the entries built from the requested entries whose names the host lacks. |
| Steps.RemoveStep | plugins/modules/host.py:632-673 | A host with no initiators gets no request. Otherwise a request is issued exactly when existing and requested intersect. It removes that intersection by bare name, each name once. |
| Steps.IsModifyRequired | plugins/modules/host.py:815-824 | A modify is required exactly when applying it would change the host's name or connectivity. A field left as None never counts as a difference. |
| Planner.ResolveHost | plugins/modules/host.py:435-453 | A lookup by a non-empty name that matches more than one host is an error. A name with no match is an absent host. A non-empty id must resolve. An empty name or id looks nothing up. |
| Planner.InitiatorArgsCheck | plugins/modules/host.py:745-762 | `initiator_state` without a non-empty initiator list is an error, and so is the reverse. When both are given, detailed initiators are validated. The check passes exactly when the two are given together or not at all and no detailed entry carries CHAP under an FC or NVMe type; a CHAP error is the one the validator reports. |
| Planner.CreatePath | plugins/modules/host.py:764-779 | On an absent host, a non-empty `new_name` is refused. An `initiator_state` other than present-in-host is refused. Past those two checks the outcome is the create step's: its error, or its one create request as the only request of the pass. That request reports a change and reads the new host back by name. |
| Planner.StepOps | plugins/modules/host.py:787-807 | The add, remove, modify and delete requests are issued in that order, at most one of each. Each request comes from its step, every request a step issues is sent, and a delete is sent alone. |
| Planner.ExistingPath | plugins/modules/host.py:781-807 | A supplied `os_type` that differs from the host's stops the pass. Otherwise every request targets the resolved host and is the one its step issues. The add request is the add step's, under present-in-host. The remove request is the remove step's, under absent-in-host. The modify request carries `new_name` and `host_connectivity` and needs a wanted, differing field. Delete is the only request when state is absent and the host exists. `changed` holds exactly when a request is issued. The details are empty exactly when state is absent. |
| Planner.PerformModuleOperation | plugins/modules/host.py:721-812 | A whole pass. The ambiguity and companion-field errors come before any step. A successful pass never carries a non-empty CHAP username on an entry whose caller-supplied `port_type` is FC or NVMe, and never contradicts the host's os type. A create happens only for an absent host named by `host_name`, and is then the only request. For such a host, with state present and the checks passed, the pass is the create path. Every other request targets the existing host and is the one its step issues. A failed companion-field or CHAP check is the pass's error; otherwise, unless the pass creates, it is the path for the existing host. A successful pass with state absent deletes the host if it exists, and its details are empty. `changed` is exactly "some request issued". |
| Planner.ExistingHostQuietIff | plugins/modules/host.py:787-803 | On an existing host with state present, a pass issues no request and reports no change exactly when the host already matches: the requested initiators are present or absent as asked, and no supplied name or connectivity differs. |
| Convergence.AddConverges | plugins/modules/host.py:573-622 | After the add request is applied, every requested name is on the host. |
| Convergence.RemoveConverges | plugins/modules/host.py:654-664 | After the remove request is applied, no requested name is left on the host. |
| Convergence.ModifyConverges | plugins/modules/host.py:799-803 | After the modify request is applied, no modify is wanted any more. |
| Convergence.ExistingPassConverges | plugins/modules/host.py:787-803 | When the supplied os type matches the existing host's, a pass with state present succeeds. Its requests all edit that host. Applied in order, they leave it matching the parameters. Its id and os type are kept. Its name is kept unless a modify was wanted, in which case it becomes the supplied new one. |
| Convergence.PassQuietIffConverged | plugins/modules/host.py:721-807 | A whole successful pass with state present on a host that exists issues no request and reports no change exactly when that host already matches the parameters. |
| Convergence.StepsConverge | plugins/modules/host.py:787-803 | The host after the add, remove and modify steps of a pass matches the parameters. Its name is kept unless a modify was wanted, in which case it is the supplied new one. |
| Convergence.SecondPassAfterSteps | plugins/modules/host.py:781-807 | When a pass is not a create, applying its requests leaves the next pass quiet. That covers a pass that issued nothing, a delete, and an edit. |
| Convergence.SecondPassAfterDeleteStep | plugins/modules/host.py:805-807 | After a delete, a pass by name with state absent is quiet. A pass by id would look up a host that is gone, which the module does not handle. |
| Convergence.SecondPassIsQuiet | plugins/modules/host.py:721-812 | Take a successful pass and apply its requests to the array. Rerun with the same parameters and the pass succeeds, issues nothing and reports no change. The host must stay findable under its identity: by id, or by a name that no rename changes. A delete by name is covered. A delete by id is excluded. |
| Convergence.SecondPassAfterCreate | plugins/modules/host.py:764-779 | Once a host created by name is on the array, that name resolves to it. The host matches the parameters, so the next pass is quiet. |
| Convergence.SecondPassAfterEdit | plugins/modules/host.py:787-803 | Once the add, remove and modify requests are applied to an existing host, the same identity still resolves to that host. This holds for a lookup by id, or by a name the pass does not change. The next pass is quiet. |
| Convergence.ExistingPassEditsHost | plugins/modules/host.py:781-803 | When the supplied os type matches the existing host's, a pass with state present succeeds, and each request edits that host. |
| Convergence.SecondPassAfterDelete | plugins/modules/host.py:805-807 | Once the only host of a name is deleted, the name resolves to nothing. The next pass with state absent is quiet. |
| Scenarios.CreateWithFcInitiator | plugins/modules/host.py:471-502 | Creating `h1` with one WWN issues one create request with that initiator typed FC, and reports a change. |
| Scenarios.AddPresentInitiator | plugins/modules/host.py:551-555 | Adding an initiator the host already has issues nothing and reports no change. |
| Scenarios.RemoveStepIntersection | plugins/modules/host.py:654-664 | Removing {B, C} from a host that holds {A, B} removes B alone. |
| Scenarios.RemoveIntersection | plugins/modules/host.py:793-797 | The same removal as a whole pass: one remove request for B, and a change. |
| Scenarios.OsTypeChangeRefused | plugins/modules/host.py:781-785 | Asking for Linux on a Windows host fails before any request. |
| Scenarios.AbsentHostStaysAbsent | plugins/modules/host.py:805-809 | State absent on a missing host issues nothing and returns empty details. |
| Scenarios.ThreeWayMixRefused | plugins/modules/host.py:488-495 | Create refuses plain initiators that span iSCSI, NVMe and FC. |
| Scenarios.TwoWayMixAccepted | plugins/modules/host.py:488-495 | Create accepts plain initiators that span only iSCSI and FC. |
| Scenarios.UntypedChapReachesCreate | plugins/modules/host.py:504-518 | A WWN with a CHAP username and no `port_type` passes validation and is created as FC with its CHAP fields. With an explicit FC type the pass fails instead. |
| Scenarios.AddRetypesByPrefix | plugins/modules/host.py:583-598 | Add sends a WWN declared as iSCSI as FC and drops its CHAP username. |
| Scenarios.RenameByNameNotRepeatable | plugins/modules/host.py:764-769 | A rename by `host_name` issues a modify. On the next pass the old name resolves to nothing and `new_name` is refused. |

## Left out

- AnsibleModule construction, the argument spec, the choice lists and the
  mutual-exclusion checks (plugins/modules/host.py:385-417, 827-863) are
  framework glue. The choice lists are enums. The `host_name`/`host_id` and
  `initiators`/`detailed_initiators` exclusions are built into the `Ident`
  and `Request` types.
- The SDK connection and the remote calls (`get_host`, `get_host_by_name`,
  `create_host`, `modify_host`, `delete_host`) are not modelled.
  - The lookup answer is an input (`Lookup`), and the requests are outputs
    (`Op`).
  - A failed remote call, its exception wrapping and `failure_codes` are not
    modelled. Every planned request is assumed to succeed.
- The logger, the SDK presence and version checks, and the application-type
  constant (plugins/modules/host.py:363-376, 400-408) are left out. They do
  not affect any decision.
- The DOCUMENTATION, EXAMPLES and RETURN strings are left out.
- Reading the host back for `host_details` (plugins/modules/host.py:719) is
  left out because it is an opaque read. It is modelled only as where the
  details come from (`Details`). The same goes for the id lookup by name
  after a create (plugins/modules/host.py:778-779).
- A `host_id` that names no host is a precondition (`LookupConsistent`), not a
  modelled path, because the module fails in `get_host` or crashes there
  (plugins/modules/host.py:423-433, 740).
- Steps.AddStep and Steps.RemoveStep require a non-empty initiator list,
  because the orchestrator only calls them then
  (plugins/modules/host.py:787-797). What the module's functions do when
  called directly with an empty or missing list is not modelled.
- Differ.AddNames and Differ.RemoveNames fix the list order to first
  occurrence. The module builds these lists with `list(set(...))`, whose order
  is unspecified. The array ignores the order.
- Steps.AddList lists the detailed entries in request order. The module
  groups them by name in set order. The entries and their counts are the
  same.
- `changed = self.update_host(...)` assigns where the other steps OR
  (plugins/modules/host.py:802). The model ORs. This is equivalent because
  `update_host` returns True or fails.
- `active_sessions` of an observed initiator is left out, because no decision
  reads it.
- A null `host_initiators` is the empty sequence. A host record without the
  `host_initiators` key is not modelled: the add step treats it as empty
  (plugins/modules/host.py:546-550), but the remove step reads the key
  directly and fails the pass (plugins/modules/host.py:639, 668-673).
- The observed os type and connectivity use the same enums as the
  parameters.
- Convergence.SecondPassIsQuiet assumes two things about the array: a host
  created without a connectivity gets one fixed connectivity
  (`DefaultConnectivity`; the value is arbitrary and no proof depends on
  which), and a created host gets an unused id.
- Convergence.SecondPassIsQuiet excludes, for a pass by `host_name` with
  state present, any `new_name` other than the current name, except an empty
  `new_name` given without a connectivity (`Convergence.NameKept`). It also
  excludes a delete by `host_id`, because the second pass needs the id to
  resolve. The module itself does not converge in these cases:
  `Scenarios.RenameByNameNotRepeatable` shows the rename case, and a second
  delete by id fails on the unknown id.

=== FILE: classifier.dfy ===
/** Port-name classification: the prefix rule the host module inlines in its
    create and add-initiators paths. */
module Classifier {
  import opened HostTypes

  /** The protocol of an initiator by the first matching rule: an `iqn`
      prefix is iSCSI, otherwise an `nqn` prefix is NVMe, otherwise FC.
      Nothing beyond the prefix is checked. */
  function Classify(name: string): (t: PortType)
    ensures t == ISCSI <==> |name| >= 3 && name[0] == 'i' && name[1] == 'q' && name[2] == 'n'
    ensures t == NVMe <==> |name| >= 3 && name[0] == 'n' && name[1] == 'q' && name[2] == 'n'
    ensures t == FC <==> !(|name| >= 3 && name[1] == 'q' && name[2] == 'n'
                           && (name[0] == 'i' || name[0] == 'n'))
  {
    if "iqn" <= name then ISCSI
    else if "nqn" <= name then NVMe
    else FC
  }

  /** The same rule with the two prefix tests in the other order. */
  function ClassifyNvmeFirst(name: string): PortType {
    if "nqn" <= name then NVMe
    else if "iqn" <= name then ISCSI
    else FC
  }

  /** The precedence of the two prefix tests cannot change a verdict: no
      name starts with both `iqn` and `nqn`. */
  lemma ClassifyPrecedenceIrrelevant(name: string)
    ensures !("iqn" <= name && "nqn" <= name)
    ensures Classify(name) == ClassifyNvmeFirst(name)
  {
    if "iqn" <= name {
      assert name[0] == "iqn"[0] != "nqn"[0];
    }
  }

  /** Classification looks at the first three characters only. */
  lemma {:induction false} ClassifyByPrefixOnly(name: string, suffix: string)
    requires |name| >= 3
    ensures Classify(name + suffix) == Classify(name)
  {
    assert (name + suffix)[..3] == name[..3];
  }
}

=== FILE: convergence.dfy ===
/** Convergence of the reconciliation: once the requests of one pass have
    been applied to the array, a second pass with the same parameters issues
    nothing and reports no change. */
module Convergence {
  import opened Wrappers
  import opened SeqSets
  import opened HostTypes
  import opened Differ
  import opened Steps
  import opened Planner
  import opened Repository

  /** An existing host after a sequence of requests addressed to it. */
  function HostAfterAll(h: ObservedHost, ops: seq<Op>): ObservedHost
    decreases |ops|
  {
    if |ops| == 0 then h else HostAfterAll(HostAfter(h, ops[0]), ops[1..])
  }

  /** A request that edits one existing host in place. */
  predicate EditsHost(op: Op, id: HostId) {
    (op.AddInitiators? || op.RemoveInitiators? || op.ModifyHost?) && op.hostId == id
  }

  /** Requests that all edit the host `id` act on that host alone. */
  lemma {:induction false} ApplyToOneHost(arr: Array, ops: seq<Op>, newId: HostId, id: HostId)
    requires id in arr
    requires forall op | op in ops :: EditsHost(op, id)
    ensures ApplyAll(arr, ops, newId) == arr[id := HostAfterAll(arr[id], ops)]
    decreases |ops|
  {
    if |ops| > 0 {
      var next := ApplyOp(arr, ops[0], newId);
      assert EditsHost(ops[0], id) by { assert ops[0] in ops; }
      assert next == arr[id := HostAfter(arr[id], ops[0])];
      assert forall op | op in ops[1..] :: op in ops;
      ApplyToOneHost(next, ops[1..], newId, id);
      assert next[id := HostAfterAll(next[id], ops[1..])] == arr[id := HostAfterAll(arr[id], ops)];
    }
  }

  /** Editing requests keep the id and the os type of a host. */
  lemma {:induction false} HostAfterAllKeeps(h: ObservedHost, ops: seq<Op>)
    ensures HostAfterAll(h, ops).id == h.id
    ensures HostAfterAll(h, ops).osType == h.osType
    decreases |ops|
  {
    if |ops| > 0 {
      HostAfterAllKeeps(HostAfter(h, ops[0]), ops[1..]);
    }
  }

  /** The names a host records for a list of request entries. */
  lemma StoredNames(h: ObservedHost, added: seq<InitiatorSpec>)
    ensures ExistingNames(h.(initiators := h.initiators + Map(added, Stored)))
            == ExistingNames(h) + SpecNames(added)
  {
  }

  /** After the add request, every requested name is on the host. */
  lemma AddConverges(h: ObservedHost, req: Request)
    requires Given(req)
    requires AddStep(h, req).Some?
    ensures Elems(RequestedNames(req)) <= Elems(ExistingNames(HostAfter(h, AddStep(h, req).value)))
  {
    var op := AddStep(h, req).value;
    StoredNames(h, op.added);
    ElemsConcat(ExistingNames(h), SpecNames(op.added));
  }

  /** After the remove request, no requested name is left on the host. */
  lemma RemoveConverges(h: ObservedHost, req: Request)
    requires Given(req)
    requires RemoveStep(h, req).Some?
    ensures RemoveSet(ExistingNames(HostAfter(h, RemoveStep(h, req).value)), RequestedNames(req)) == {}
  {
    var op := RemoveStep(h, req).value;
    var h2 := HostAfter(h, op);
    var requested := RequestedNames(req);
    forall x | x in Elems(ExistingNames(h2)) ensures x !in Elems(requested) {
      var i :| 0 <= i < |ExistingNames(h2)| && ExistingNames(h2)[i] == x;
      assert h2.initiators[i] in h.initiators;
      assert x in ExistingNames(h) && x !in op.removed;
    }
  }

  /** After the modify request, no modify is wanted any more. */
  lemma ModifyConverges(p: Params, h: ObservedHost)
    ensures !ModifyWanted(p, Modified(h, p.newName, p.connectivity))
  {
  }

  /** A set of one element holds that element only. */
  lemma OnlyElement<T>(s: set<T>, x: T)
    requires |s| == 1 && x in s
    ensures s == {x}
  {
    assert |s - {x}| == 0;
    assert s - {x} == {};
  }

  /** The names a freshly created host records are those it was created with. */
  lemma CreatedNames(h: ObservedHost, initiators: seq<InitiatorSpec>)
    ensures ExistingNames(h.(initiators := Map(initiators, Stored))) == SpecNames(initiators)
  {
  }

  /** Whether a modify is wanted depends on the host's name and
      connectivity only. */
  lemma ModifyWantedByNameAndConnectivity(p: Params, h: ObservedHost, h': ObservedHost)
    requires h.name == h'.name && h.connectivity == h'.connectivity
    ensures ModifyWanted(p, h) == ModifyWanted(p, h')
  {
  }

  /** An existing host after an optional request. */
  function HostAfterOpt(h: ObservedHost, op: Option<Op>): ObservedHost {
    if op.Some? then HostAfter(h, op.value) else h
  }

  /** Applying two runs of requests one after the other. */
  lemma {:induction false} HostAfterConcat(h: ObservedHost, a: seq<Op>, b: seq<Op>)
    ensures HostAfterAll(h, a + b) == HostAfterAll(HostAfterAll(h, a), b)
    decreases |a|
  {
    if |a| > 0 {
      assert (a + b)[1..] == a[1..] + b;
      HostAfterConcat(HostAfter(h, a[0]), a[1..], b);
    } else {
      assert a + b == b;
    }
  }

  /** Applying the request of a step that may issue none. */
  lemma HostAfterIssued(h: ObservedHost, op: Option<Op>)
    ensures HostAfterAll(h, Issued(op)) == HostAfterOpt(h, op)
  {
    if op.Some? {
      assert Issued(op)[1..] == [];
    }
  }

  /** The host after the add, remove and modify requests of one pass. */
  lemma HostAfterSteps(h: ObservedHost, add: Option<Op>, remove: Option<Op>, update: Option<Op>)
    requires add.Some? ==> add.value.AddInitiators?
    requires remove.Some? ==> remove.value.RemoveInitiators?
    requires update.Some? ==> update.value.ModifyHost?
    requires add.None? || remove.None?
    ensures HostAfterAll(h, StepOps(add, remove, update, None))
            == HostAfterOpt(HostAfterOpt(HostAfterOpt(h, add), remove), update)
  {
    var a, r, u := Issued(add), Issued(remove), Issued(update);
    assert StepOps(add, remove, update, None) == a + r + u + [];
    assert a + r + u + [] == (a + r) + u;
    HostAfterConcat(h, a + r, u);
    HostAfterConcat(h, a, r);
    HostAfterIssued(h, add);
    HostAfterIssued(HostAfterOpt(h, add), remove);
    HostAfterIssued(HostAfterOpt(HostAfterOpt(h, add), remove), update);
  }

  /** The add or remove request of a pass leaves the host's initiators
      matching the request. */
  lemma InitiatorStepsConverge(p: Params, h: ObservedHost)
    requires p.initiatorState.Some? ==> Given(p.request)
    requires p.state == Present
    ensures var h1 := HostAfterOpt(HostAfterOpt(h, AddDecision(p, Some(h))), RemoveDecision(p, Some(h)));
      && (p.initiatorState == Some(PresentInHost) && Given(p.request) ==>
            Elems(RequestedNames(p.request)) <= Elems(ExistingNames(h1)))
      && (p.initiatorState == Some(AbsentInHost) && Given(p.request) ==>
            RemoveSet(ExistingNames(h1), RequestedNames(p.request)) == {})
      && h1.name == h.name && h1.connectivity == h.connectivity
  {
    var add := AddDecision(p, Some(h));
    var remove := RemoveDecision(p, Some(h));
    if add.Some? {
      AddConverges(h, p.request);
    }
    if remove.Some? {
      RemoveConverges(h, p.request);
    }
  }

  /** A pass with state present on an existing host whose os type is not
      contested succeeds, and each of its requests edits that host. */
  lemma ExistingPassEditsHost(p: Params, h: ObservedHost, id: Option<HostId>)
    requires p.initiatorState.Some? ==> Given(p.request)
    requires p.state == Present
    requires p.osType.None? || p.osType.value == h.osType
    ensures ExistingPath(p, Some(h), id).Success?
    ensures forall op | op in ExistingPath(p, Some(h), id).value.ops :: EditsHost(op, h.id)
  {
    var ops := ExistingPath(p, Some(h), id).value.ops;
    forall op | op in ops ensures EditsHost(op, h.id) {
      assert IssuedBy(p, h, op);
    }
  }

  /** The requests of a pass on an existing host, once applied, leave that
      host matching the parameters; its id and os type are kept, and its
      name is either kept or the supplied new one. */
  lemma {:induction false} ExistingPassConverges(p: Params, h: ObservedHost, id: Option<HostId>)
    requires p.initiatorState.Some? ==> Given(p.request)
    requires p.state == Present
    requires p.osType.None? || p.osType.value == h.osType
    ensures ExistingPath(p, Some(h), id).Success?
    ensures forall op | op in ExistingPath(p, Some(h), id).value.ops :: EditsHost(op, h.id)
    ensures Converged(p, HostAfterAll(h, ExistingPath(p, Some(h), id).value.ops))
    ensures HostAfterAll(h, ExistingPath(p, Some(h), id).value.ops).id == h.id
    ensures HostAfterAll(h, ExistingPath(p, Some(h), id).value.ops).osType == h.osType
    ensures var name := HostAfterAll(h, ExistingPath(p, Some(h), id).value.ops).name;
      name == h.name || (ModifyWanted(p, h) && p.newName == Some(name))
  {
    ExistingPassEditsHost(p, h, id);
    var ops := ExistingPath(p, Some(h), id).value.ops;
    var add := AddDecision(p, Some(h));
    var remove := RemoveDecision(p, Some(h));
    var update := ModifyDecision(p, Some(h));
    assert ops == StepOps(add, remove, update, None);
    HostAfterAllKeeps(h, ops);
    HostAfterSteps(h, add, remove, update);
    StepsConverge(p, h);
  }

  /** The host after the add, remove and modify steps of a pass matches the
      parameters, and its name is kept or is the supplied new one. */
  lemma StepsConverge(p: Params, h: ObservedHost)
    requires p.initiatorState.Some? ==> Given(p.request)
    requires p.state == Present
    ensures var h2 := HostAfterOpt(HostAfterOpt(HostAfterOpt(h, AddDecision(p, Some(h))),
                                                RemoveDecision(p, Some(h))),
                                   ModifyDecision(p, Some(h)));
      Converged(p, h2) && (h2.name == h.name || (ModifyWanted(p, h) && p.newName == Some(h2.name)))
  {
    var update := ModifyDecision(p, Some(h));
    InitiatorStepsConverge(p, h);
    var h1 := HostAfterOpt(HostAfterOpt(h, AddDecision(p, Some(h))), RemoveDecision(p, Some(h)));
    var h2 := HostAfterOpt(h1, update);
    assert ExistingNames(h2) == ExistingNames(h1);
    if update.Some? {
      ModifyConverges(p, h1);
    } else {
      ModifyWantedByNameAndConnectivity(p, h, h2);
    }
  }

  /** The pass leaves the host findable under the identity it was given:
      the host is addressed by id, or no rename is asked for, or the rename
      is to its current name, or an empty `new_name` comes without a
      connectivity (so the modify step is not entered), or the host is to
      be absent (so no modify or create step runs at all). */
  predicate NameKept(p: Params) {
    || p.state == Absent
    || p.newName.None?
    || p.ident.ById?
    || p.newName == Some(p.ident.name)
    || (p.newName == Some("") && p.connectivity.None?)
  }

  /** A pass over the array `arr` succeeds, issues no request and reports
      no change. */
  ghost predicate QuietOn(p: Params, arr: Array) {
    LookupConsistent(p.ident, Observe(arr, p.ident)) &&
    var r := PerformModuleOperation(p, Observe(arr, p.ident));
    r.Success? && r.value.ops == [] && !r.value.changed
  }

  /** A pass on an existing host whose os type is not contested and which
      already matches the parameters is quiet. */
  lemma QuietOnConverged(p: Params, arr: Array, h: ObservedHost)
    requires p.state == Present
    requires InitiatorArgsCheck(p).None?
    requires NameGiven(p.ident) || IdGiven(p.ident)
    requires Observe(arr, p.ident) == Found(h)
    requires p.osType.None? || p.osType.value == h.osType
    requires Converged(p, h)
    ensures QuietOn(p, arr)
  {
    var lookup := Observe(arr, p.ident);
    assert ResolveHost(p.ident, lookup) == Success(Some(h));
    ExistingHostQuietIff(p, h, ResolvedId(p.ident, lookup));
  }

  /** The create case: the name now resolves to the created host, which
      matches the parameters. */
  lemma SecondPassAfterCreate(p: Params, arr: Array, newId: HostId)
    requires WellFormed(arr)
    requires newId !in arr
    requires NameGiven(p.ident) && p.state == Present
    requires NameKept(p)
    requires NamedIds(arr, p.ident.name) == {}
    requires InitiatorArgsCheck(p).None?
    requires CreatePath(p, p.ident.name).Success?
    ensures QuietOn(p, ApplyAll(arr, CreatePath(p, p.ident.name).value.ops, newId))
  {
    var n := p.ident.name;
    var ops := CreatePath(p, n).value.ops;
    var create := ops[0];
    assert ops == [create];
    assert CreateStep(p, n) == Success(create);
    var created := ObservedHost(newId, n, create.osType, Map(create.initiators, Stored),
                                create.connectivity.GetOr(DefaultConnectivity));
    var arr2 := arr[newId := created];
    assert ApplyAll(arr, ops, newId) == arr2;
    assert NamedIds(arr2, n) == {newId};
    assert Observe(arr2, p.ident) == Found(created);
    CreatedNames(created, create.initiators);
    QuietOnConverged(p, arr2, created);
  }

  /** The edit case: the host keeps its id, and its name unless it is
      addressed by id, so the same identity resolves to the edited host. */
  lemma SecondPassAfterEdit(p: Params, arr: Array, newId: HostId, h: ObservedHost, id: Option<HostId>)
    requires WellFormed(arr)
    requires p.state == Present
    requires NameKept(p)
    requires InitiatorArgsCheck(p).None?
    requires NameGiven(p.ident) || IdGiven(p.ident)
    requires Observe(arr, p.ident) == Found(h)
    requires p.osType.None? || p.osType.value == h.osType
    ensures ExistingPath(p, Some(h), id).Success?
    ensures QuietOn(p, ApplyAll(arr, ExistingPath(p, Some(h), id).value.ops, newId))
  {
    var ops := ExistingPath(p, Some(h), id).value.ops;
    ExistingPassConverges(p, h, id);
    assert h.id in arr && arr[h.id] == h;
    ApplyToOneHost(arr, ops, newId, h.id);
    var h2 := HostAfterAll(h, ops);
    if p.ident.ByName? {
      FoundByName(arr, p.ident.name, h);
    }
    EditedHostFound(arr, p.ident, h, h2);
    QuietOnConverged(p, arr[h.id := h2], h2);
  }

  /** A host found by name carries that name. */
  lemma FoundByName(arr: Array, name: string, h: ObservedHost)
    requires WellFormed(arr)
    requires Observe(arr, ByName(name)) == Found(h)
    ensures h.name == name && h.id in arr && arr[h.id] == h
  {
  }

  /** A host edited in place, keeping its id and (when it is looked up by
      name) its name, is found under the same identity. */
  lemma EditedHostFound(arr: Array, ident: Ident, h: ObservedHost, h2: ObservedHost)
    requires WellFormed(arr)
    requires Observe(arr, ident) == Found(h)
    requires h2.id == h.id
    requires ident.ByName? ==> h2.name == h.name
    ensures Observe(arr[h.id := h2], ident) == Found(h2)
  {
    assert h.id in arr && arr[h.id] == h;
    if ident.ByName? {
      assert NamedIds(arr[h.id := h2], ident.name) == NamedIds(arr, ident.name);
    }
  }

  /** The delete case by name: the only host of that name is gone. */
  lemma SecondPassAfterDelete(p: Params, arr: Array, k: HostId)
    requires WellFormed(arr)
    requires NameGiven(p.ident) && p.state == Absent
    requires InitiatorArgsCheck(p).None?
    requires k in arr && Observe(arr, p.ident) == Found(arr[k])
    ensures QuietOn(p, arr - {k})
  {
    var n := p.ident.name;
    assert k in NamedIds(arr, n);
    OnlyElement(NamedIds(arr, n), k);
    assert NamedIds(arr - {k}, n) == {};
    assert Observe(arr - {k}, p.ident) == NotFound;
  }

  /** A successful pass is either the create path, for an absent host
      named by `host_name` with state present, or the steps on the resolved
      host. */
  lemma PassShape(p: Params, lookup: Lookup)
    requires LookupConsistent(p.ident, lookup)
    requires PerformModuleOperation(p, lookup).Success?
    ensures InitiatorArgsCheck(p).None?
    ensures !(NameGiven(p.ident) && lookup.Ambiguous?)
    ensures p.state == Present && HostOf(p.ident, lookup).None? && NameGiven(p.ident) ==>
      PerformModuleOperation(p, lookup) == CreatePath(p, p.ident.name)
    ensures !(p.state == Present && HostOf(p.ident, lookup).None? && NameGiven(p.ident)) ==>
      PerformModuleOperation(p, lookup) == ExistingPath(p, HostOf(p.ident, lookup), ResolvedId(p.ident, lookup))
  {
    assert ResolveHost(p.ident, lookup) == Success(HostOf(p.ident, lookup));
  }

  /** A delete request takes the host out of the array. */
  lemma DeleteApplied(arr: Array, k: HostId, newId: HostId)
    ensures ApplyAll(arr, [DeleteHost(k)], newId) == arr - {k}
    ensures Observe(arr - {k}, ById(k)) == NotFound
  {
    assert [DeleteHost(k)][1..] == [];
  }

  /** A whole pass with state present on a host that exists issues no
      request, and reports no change, exactly when that host already
      matches the parameters. */
  lemma PassQuietIffConverged(p: Params, lookup: Lookup)
    requires LookupConsistent(p.ident, lookup)
    requires PerformModuleOperation(p, lookup).Success?
    requires p.state == Present && HostOf(p.ident, lookup).Some?
    ensures PerformModuleOperation(p, lookup).value.ops == [] <==> Converged(p, HostOf(p.ident, lookup).value)
    ensures PerformModuleOperation(p, lookup).value.changed <==> !Converged(p, HostOf(p.ident, lookup).value)
  {
    PassShape(p, lookup);
    ExistingHostQuietIff(p, HostOf(p.ident, lookup).value, ResolvedId(p.ident, lookup));
  }

  /** The delete case: by name, the only host of that name is gone; by id,
      the second lookup would find nothing, which the module does not
      handle. */
  lemma SecondPassAfterDeleteStep(p: Params, arr: Array, newId: HostId, h: ObservedHost)
    requires WellFormed(arr)
    requires p.state == Absent
    requires InitiatorArgsCheck(p).None?
    requires NameGiven(p.ident) || IdGiven(p.ident)
    requires Observe(arr, p.ident) == Found(h)
    requires LookupConsistent(p.ident, Observe(ApplyAll(arr, [DeleteHost(h.id)], newId), p.ident))
    ensures QuietOn(p, ApplyAll(arr, [DeleteHost(h.id)], newId))
  {
    DeleteApplied(arr, h.id, newId);
    if p.ident.ByName? {
      FoundByName(arr, p.ident.name, h);
      SecondPassAfterDelete(p, arr, h.id);
    } else {
      assert false;
    }
  }

  /** A pass on the steps' path that issues nothing is quiet when rerun on
      the same array. */
  lemma QuietWithoutRequests(p: Params, lookup: Lookup)
    requires InitiatorArgsCheck(p).None?
    requires LookupConsistent(p.ident, lookup)
    requires !(NameGiven(p.ident) && lookup.Ambiguous?)
    requires !(p.state == Present && HostOf(p.ident, lookup).None? && NameGiven(p.ident))
    requires ExistingPath(p, HostOf(p.ident, lookup), ResolvedId(p.ident, lookup)).Success?
    requires ExistingPath(p, HostOf(p.ident, lookup), ResolvedId(p.ident, lookup)).value.ops == []
    ensures PerformModuleOperation(p, lookup).Success?
    ensures PerformModuleOperation(p, lookup).value.ops == []
    ensures !PerformModuleOperation(p, lookup).value.changed
  {
    assert ResolveHost(p.ident, lookup) == Success(HostOf(p.ident, lookup));
  }

  /** The cases other than create: the pass issued nothing, deleted the
      host, or edited it in place. */
  lemma SecondPassAfterSteps(p: Params, arr: Array, newId: HostId)
    requires WellFormed(arr)
    requires NameKept(p)
    requires InitiatorArgsCheck(p).None?
    requires LookupConsistent(p.ident, Observe(arr, p.ident))
    requires !(NameGiven(p.ident) && Observe(arr, p.ident).Ambiguous?)
    requires !(p.state == Present && HostOf(p.ident, Observe(arr, p.ident)).None? && NameGiven(p.ident))
    requires ExistingPath(p, HostOf(p.ident, Observe(arr, p.ident)),
                         ResolvedId(p.ident, Observe(arr, p.ident))).Success?
    requires var ops := ExistingPath(p, HostOf(p.ident, Observe(arr, p.ident)),
                                     ResolvedId(p.ident, Observe(arr, p.ident))).value.ops;
      LookupConsistent(p.ident, Observe(ApplyAll(arr, ops, newId), p.ident))
    ensures QuietOn(p, ApplyAll(arr, ExistingPath(p, HostOf(p.ident, Observe(arr, p.ident)),
                                                  ResolvedId(p.ident, Observe(arr, p.ident))).value.ops, newId))
  {
    var lookup := Observe(arr, p.ident);
    var host := HostOf(p.ident, lookup);
    var ops := ExistingPath(p, host, ResolvedId(p.ident, lookup)).value.ops;
    if ops == [] {
      assert ApplyAll(arr, ops, newId) == arr;
      QuietWithoutRequests(p, lookup);
    } else if p.state == Absent {
      assert ops == [DeleteHost(host.value.id)];
      SecondPassAfterDeleteStep(p, arr, newId, host.value);
    } else {
      SecondPassAfterEdit(p, arr, newId, host.value, ResolvedId(p.ident, lookup));
    }
  }

  /** Convergence: apply the requests of a successful pass to a well-formed
      array (a created host getting an unused id) and run the pass again with
      the same parameters: it succeeds, issues no request and reports no
      change. Two cases are set aside because the module's own second pass
      differs there: a rename by `host_name` to another name (the old name no longer
      resolves, so the second pass sees an absent host and refuses the
      `new_name`), and a second pass whose `host_id` no longer exists after a
      delete (the module indexes the missing host). */
  lemma {:induction false} SecondPassIsQuiet(p: Params, arr: Array, newId: HostId, arr2: Array)
    requires WellFormed(arr)
    requires newId !in arr
    requires NameKept(p)
    requires LookupConsistent(p.ident, Observe(arr, p.ident))
    requires PerformModuleOperation(p, Observe(arr, p.ident)).Success?
    requires arr2 == ApplyAll(arr, PerformModuleOperation(p, Observe(arr, p.ident)).value.ops, newId)
    requires LookupConsistent(p.ident, Observe(arr2, p.ident))
    ensures PerformModuleOperation(p, Observe(arr2, p.ident)).Success?
    ensures PerformModuleOperation(p, Observe(arr2, p.ident)).value.ops == []
    ensures !PerformModuleOperation(p, Observe(arr2, p.ident)).value.changed
  {
    var lookup := Observe(arr, p.ident);
    PassShape(p, lookup);
    if p.state == Present && HostOf(p.ident, lookup).None? && NameGiven(p.ident) {
      SecondPassAfterCreate(p, arr, newId);
    } else {
      SecondPassAfterSteps(p, arr, newId);
    }
  }
}

=== FILE: differ.dfy ===
/** The initiator set differ: `_get_add_initiators` and
    `_get_remove_initiators`, over port names. */
module Differ {
  import opened SeqSets

  /** `_get_add_initiators`: everything in `existing + requested` that is
      not already in `existing`. */
  function AddSet(existing: seq<string>, requested: seq<string>): (r: set<string>)
    ensures r == Elems(requested) - Elems(existing)
    ensures r !! Elems(existing)
    ensures Elems(requested) <= r + Elems(existing)
    ensures r <= Elems(requested)
  {
    ElemsConcat(existing, requested);
    Elems(existing + requested) - Elems(existing)
  }

  /** `_get_remove_initiators`: the existing names that are also requested. */
  function RemoveSet(existing: seq<string>, requested: seq<string>): (r: set<string>)
    ensures r <= Elems(existing) && r <= Elems(requested)
    ensures forall x | x in existing && x in requested :: x in r
  {
    Elems(existing) * Elems(requested)
  }

  /** The add set as a list: requested names absent from the host, each
      once, in the order of their first request. */
  function AddNames(existing: seq<string>, requested: seq<string>): (r: seq<string>)
    ensures Elems(r) == AddSet(existing, requested)
    ensures NoDup(r)
  {
    Distinct(Filter(requested, (x: string) => x !in existing))
  }

  /** The remove set as a list: host names that are requested, each once,
      in the order the host reports them. */
  function RemoveNames(existing: seq<string>, requested: seq<string>): (r: seq<string>)
    ensures Elems(r) == RemoveSet(existing, requested)
    ensures NoDup(r)
  {
    Distinct(Filter(existing, (x: string) => x in requested))
  }

  /** Requesting only what the host already has adds nothing, and asking to
      remove nothing removes nothing. */
  lemma DifferDegenerateCases(existing: seq<string>)
    ensures AddSet(existing, existing) == {}
    ensures RemoveSet(existing, []) == {}
  {
  }

  /** The add set is empty exactly when every requested name is present. */
  lemma AddSetEmptyIffSubset(existing: seq<string>, requested: seq<string>)
    ensures AddSet(existing, requested) == {} <==> Elems(requested) <= Elems(existing)
  {
    if AddSet(existing, requested) == {} {
      forall x | x in Elems(requested) ensures x in Elems(existing) {
        assert x !in AddSet(existing, requested);
      }
    }
  }

  /** After the add set is merged into the host, the remove set of the same
      request is everything requested, and a second add finds nothing. */
  lemma {:induction false} AddThenDiffer(existing: seq<string>, requested: seq<string>)
    ensures AddSet(existing + AddNames(existing, requested), requested) == {}
    ensures RemoveSet(existing + AddNames(existing, requested), requested) == Elems(requested)
  {
    var merged := existing + AddNames(existing, requested);
    ElemsConcat(existing, AddNames(existing, requested));
    assert Elems(requested) <= Elems(merged);
  }

  /** After the remove set is taken out of the host, nothing requested is
      left to remove. */
  lemma RemoveThenDiffer(existing: seq<string>, requested: seq<string>)
    ensures RemoveSet(Filter(existing, (x: string) => x !in RemoveNames(existing, requested)), requested) == {}
  {
    var rest := Filter(existing, (x: string) => x !in RemoveNames(existing, requested));
    forall x | x in Elems(rest) ensures x !in Elems(requested) {
      assert x in existing && x !in Elems(RemoveNames(existing, requested));
    }
  }
}

=== FILE: host_types.dfy ===
/** The entities the host module works with: the module parameters (the
    desired host), the host as the array reports it, the requests the module
    may issue to the array and the errors it may stop with. */
module HostTypes {
  import opened Wrappers
  import opened SeqSets

  type HostId = string

  /** Initiator protocols, in the order of the module's PORT_TYPES list. */
  datatype PortType = ISCSI | FC | NVMe

  datatype OsType = Windows | Linux | ESXi | AIX | HPUX | Solaris

  datatype Connectivity =
    | LocalOnly
    | MetroOptimizeBoth
    | MetroOptimizeLocal
    | MetroOptimizeRemote

  /** The `state` parameter: whether the host should exist. */
  datatype State = Present | Absent

  /** The `initiator_state` parameter. */
  datatype InitiatorState = PresentInHost | AbsentInHost

  /** One entry of `detailed_initiators`. Only `portName` is mandatory. */
  datatype InitiatorDetail = InitiatorDetail(
    portName: string,
    portType: Option<PortType>,
    chapSingleUsername: Option<string>,
    chapSinglePassword: Option<string>,
    chapMutualUsername: Option<string>,
    chapMutualPassword: Option<string>)

  /** The initiators the caller names. `initiators` and `detailed_initiators`
      are mutually exclusive, so at most one of them is supplied. */
  datatype Request =
    | NoInitiators
    | Plain(names: seq<string>)
    | Detailed(items: seq<InitiatorDetail>)

  /** One initiator inside a create or add-initiators request. An absent
      CHAP field is `None`. */
  datatype InitiatorSpec = InitiatorSpec(
    portName: string,
    portType: PortType,
    chapSingleUsername: Option<string>,
    chapSinglePassword: Option<string>,
    chapMutualUsername: Option<string>,
    chapMutualPassword: Option<string>)

  /** One initiator of a host as the array reports it. */
  datatype HostInitiator = HostInitiator(
    portName: string,
    portType: PortType,
    chapSingleUsername: Option<string>,
    chapMutualUsername: Option<string>)

  /** The host as the array reports it. A null `host_initiators` is the
      empty sequence. */
  datatype ObservedHost = ObservedHost(
    id: HostId,
    name: string,
    osType: OsType,
    initiators: seq<HostInitiator>,
    connectivity: Connectivity)

  /** How the caller identifies the host: `host_name` or `host_id`, which are
      mutually exclusive and one of which is required. */
  datatype Ident = ByName(name: string) | ById(id: HostId)

  /** The module parameters that drive the reconciliation. */
  datatype Params = Params(
    ident: Ident,
    osType: Option<OsType>,
    request: Request,
    state: State,
    initiatorState: Option<InitiatorState>,
    newName: Option<string>,
    connectivity: Option<Connectivity>)

  /** What the array answered when the host was looked up: nothing, one
      host, or (by name only) more than one host. */
  datatype Lookup = NotFound | Found(host: ObservedHost) | Ambiguous

  /** The requests the module can issue to the array. */
  datatype Op =
    | CreateHost(name: string, osType: OsType, initiators: seq<InitiatorSpec>,
                 connectivity: Option<Connectivity>)
    | AddInitiators(hostId: HostId, added: seq<InitiatorSpec>)
    | RemoveInitiators(hostId: HostId, removed: seq<string>)
    | ModifyHost(hostId: HostId, newName: Option<string>,
                 newConnectivity: Option<Connectivity>)
    | DeleteHost(hostId: HostId)

  /** The ways a pass can stop without reaching the array. */
  datatype Error =
    | AmbiguousName
    | InitiatorsMissing
    | InitiatorStateMissing
    | ChapNotSupported(portType: PortType)
    | NewNameOnAbsentHost
    | CreateNeedsPresentInHost
    | OsTypeMissing
    | ProtocolMix
    | OsTypeImmutable

  /** Where the reported `host_details` come from: nothing (state absent),
      a read of the host by id, or a read of the host just created (whose id
      is looked up again by name). */
  datatype Details = NoDetails | FetchById(id: Option<HostId>) | FetchByName(name: string)

  /** The planned requests, in issue order, and the `changed` verdict. */
  datatype Outcome = Outcome(ops: seq<Op>, changed: bool, details: Details)

  /** Python truthiness of an optional string: present and non-empty. */
  predicate Truthy(s: Option<string>) {
    s.Some? && |s.value| > 0
  }

  /** Python truthiness of `initiators or detailed_initiators`. */
  predicate Given(req: Request) {
    match req
    case NoInitiators => false
    case Plain(names) => |names| > 0
    case Detailed(items) => |items| > 0
  }

  /** The port names the caller names, in order. */
  function RequestedNames(req: Request): (r: seq<string>)
    ensures |r| > 0 <==> Given(req)
  {
    match req
    case NoInitiators => []
    case Plain(names) => names
    case Detailed(items) => seq(|items|, i requires 0 <= i < |items| => items[i].portName)
  }

  /** The port names of the host's current initiators, in reported order. */
  function ExistingNames(h: ObservedHost): (r: seq<string>)
    ensures |r| == |h.initiators|
    ensures forall i | 0 <= i < |r| :: r[i] == h.initiators[i].portName
  {
    seq(|h.initiators|, i requires 0 <= i < |h.initiators| => h.initiators[i].portName)
  }

  /** The port names carried by a list of request entries. */
  function SpecNames(specs: seq<InitiatorSpec>): (r: seq<string>)
    ensures |r| == |specs|
    ensures forall i | 0 <= i < |r| :: r[i] == specs[i].portName
  {
    seq(|specs|, i requires 0 <= i < |specs| => specs[i].portName)
  }

  /** True when a request entry carries any CHAP field. */
  predicate HasChap(s: InitiatorSpec) {
    s.chapSingleUsername.Some? || s.chapSinglePassword.Some?
    || s.chapMutualUsername.Some? || s.chapMutualPassword.Some?
  }
}

=== FILE: planner.dfy ===
/** `perform_module_operation`: one reconciliation pass. The pass resolves
    the host, checks the companion-field preconditions, validates CHAP use,
    then runs create-if-absent, the os type check, add, remove, modify and
    delete in that order. It yields either the error that stops it or the
    requests it issues and the `changed` verdict (the OR of the steps). */
module Planner {
  import opened Wrappers
  import opened SeqSets
  import opened HostTypes
  import opened Classifier
  import opened Differ
  import opened Validator
  import opened Steps

  /** `host_name` is supplied and non-empty (Python truthiness). */
  predicate NameGiven(ident: Ident) {
    ident.ByName? && |ident.name| > 0
  }

  /** `host_id` is supplied and non-empty. */
  predicate IdGiven(ident: Ident) {
    ident.ById? && |ident.id| > 0
  }

  /** What the module assumes of the array: a non-empty `host_id` names an
      existing host (the module indexes the missing host otherwise). */
  predicate LookupConsistent(ident: Ident, lookup: Lookup) {
    IdGiven(ident) ==> lookup.Found?
  }

  /** The host this pass works on, when the lookup produced one. */
  function HostOf(ident: Ident, lookup: Lookup): Option<ObservedHost> {
    if (NameGiven(ident) || IdGiven(ident)) && lookup.Found? then Some(lookup.host) else None
  }

  /** Identity resolution: by name (more than one match is an error, none
      means absent) or by id. An empty name or id queries nothing. */
  function ResolveHost(ident: Ident, lookup: Lookup): (r: Result<Option<ObservedHost>, Error>)
    requires LookupConsistent(ident, lookup)
    ensures r.Failure? <==> NameGiven(ident) && lookup.Ambiguous?
    ensures r.Failure? ==> r.error == AmbiguousName
    ensures r.Success? ==> r.value == HostOf(ident, lookup)
  {
    if NameGiven(ident) then
      match lookup
      case Ambiguous => Failure(AmbiguousName)
      case NotFound => Success(None)
      case Found(h) => Success(Some(h))
    else if IdGiven(ident) then Success(Some(lookup.host))
    else Success(None)
  }

  /** The `host_id` the result is read back with. */
  function ResolvedId(ident: Ident, lookup: Lookup): Option<HostId> {
    match ident
    case ById(id) => Some(id)
    case ByName(name) =>
      if |name| > 0 && lookup.Found? then Some(lookup.host.id) else None
  }

  /** The companion-field checks and CHAP validation that precede every
      step: `initiator_state` needs a non-empty initiator list and the
      reverse; detailed initiators are then validated. */
  function InitiatorArgsCheck(p: Params): (r: Option<Error>)
    ensures p.initiatorState.Some? && !Given(p.request) ==> r == Some(InitiatorsMissing)
    ensures Given(p.request) && p.initiatorState.None? ==> r == Some(InitiatorStateMissing)
    ensures r.None? ==> (p.initiatorState.Some? <==> Given(p.request))
    ensures r.None? && p.request.Detailed? ==>
      forall i | 0 <= i < |p.request.items| :: !Offends(p.request.items[i])
    ensures r.Some? && r.value.ChapNotSupported? ==>
      p.request.Detailed? && exists i | 0 <= i < |p.request.items| :: Offends(p.request.items[i])
    ensures r.None? <==>
      && (p.initiatorState.Some? <==> Given(p.request))
      && (p.request.Detailed? ==> forall i | 0 <= i < |p.request.items| :: !Offends(p.request.items[i]))
    ensures r.Some? && r.value.ChapNotSupported? ==> p.request.Detailed? && r == Validate(p.request.items)
  {
    if p.initiatorState.Some? && !Given(p.request) then Some(InitiatorsMissing)
    else if Given(p.request) && p.initiatorState.None? then Some(InitiatorStateMissing)
    else if p.request.Detailed? && Given(p.request) && p.initiatorState.Some? then
      Validate(p.request.items)
    else None
  }

  /** The create branch for an absent host named `name`: `new_name` is
      refused, `initiator_state` must be present-in-host, and a successful
      create is the only request of the pass. */
  function CreatePath(p: Params, name: string): (r: Result<Outcome, Error>)
    requires p.initiatorState.Some? ==> Given(p.request)
    ensures Truthy(p.newName) ==> r == Failure(NewNameOnAbsentHost)
    ensures !Truthy(p.newName) && p.initiatorState != Some(PresentInHost) ==>
      r == Failure(CreateNeedsPresentInHost)
    ensures r.Success? ==>
      && |r.value.ops| == 1
      && r.value.ops[0].CreateHost?
      && r.value.ops[0].name == name
      && r.value.changed
      && r.value.details == FetchByName(name)
    ensures !Truthy(p.newName) && p.initiatorState == Some(PresentInHost) ==>
      && (r.Success? <==> CreateStep(p, name).Success?)
      && (r.Success? ==> r.value.ops == [CreateStep(p, name).value])
      && (r.Failure? ==> r == Failure(CreateStep(p, name).error))
  {
    if Truthy(p.newName) then Failure(NewNameOnAbsentHost)
    else if p.initiatorState != Some(PresentInHost) then Failure(CreateNeedsPresentInHost)
    else
      match CreateStep(p, name)
      case Failure(e) => Failure(e)
      case Success(op) => Success(Outcome([op], true, FetchByName(name)))
  }

  /** The modify step's guard and decision: a non-empty `new_name` or a
      `host_connectivity` is supplied, and it differs from the host. */
  predicate ModifyWanted(p: Params, host: ObservedHost) {
    (Truthy(p.newName) || p.connectivity.Some?)
    && IsModifyRequired(host, p.newName, p.connectivity)
  }

  /** The issue order of the request kinds. */
  function Rank(op: Op): nat {
    match op
    case CreateHost(_, _, _, _) => 0
    case AddInitiators(_, _) => 1
    case RemoveInitiators(_, _) => 2
    case ModifyHost(_, _, _) => 3
    case DeleteHost(_) => 4
  }

  /** Requests are issued in the fixed step order, at most one of each kind. */
  predicate InStepOrder(ops: seq<Op>) {
    forall i, j | 0 <= i < j < |ops| :: Rank(ops[i]) < Rank(ops[j])
  }

  /** The request of a step that may issue none. */
  function Issued(op: Option<Op>): (ops: seq<Op>)
    ensures |ops| <= 1
    ensures forall x | x in ops :: op == Some(x)
    ensures op.Some? ==> op.value in ops
  {
    if op.Some? then [op.value] else []
  }

  /** The requests of the add, remove, modify and delete steps, in that
      order. The add and remove steps exclude each other, and delete runs
      alone: every request comes from one of the steps, there is one exactly
      when some step issues one, and they come in the step order. */
  function StepOps(add: Option<Op>, remove: Option<Op>, update: Option<Op>, delete: Option<Op>): (ops: seq<Op>)
    requires add.Some? ==> add.value.AddInitiators?
    requires remove.Some? ==> remove.value.RemoveInitiators?
    requires update.Some? ==> update.value.ModifyHost?
    requires delete.Some? ==> delete.value.DeleteHost?
    requires add.None? || remove.None?
    requires delete.Some? ==> add.None? && remove.None? && update.None?
    ensures |ops| > 0 <==> add.Some? || remove.Some? || update.Some? || delete.Some?
    ensures InStepOrder(ops)
    ensures forall op | op in ops ::
      || add == Some(op) || remove == Some(op) || update == Some(op) || delete == Some(op)
    ensures add.Some? ==> add.value in ops
    ensures remove.Some? ==> remove.value in ops
    ensures update.Some? ==> update.value in ops
    ensures delete.Some? ==> ops == [delete.value]
  {
    Issued(add) + Issued(remove) + Issued(update) + Issued(delete)
  }

  /** `op` is the request one of the add, remove, modify and delete steps
      issues on the existing host `host`, under that step's guard. */
  predicate IssuedBy(p: Params, host: ObservedHost, op: Op) {
    match op
    case AddInitiators(id, _) =>
      && id == host.id && p.state == Present && p.initiatorState == Some(PresentInHost)
      && Given(p.request) && AddStep(host, p.request) == Some(op)
    case RemoveInitiators(id, _) =>
      && id == host.id && p.state == Present && p.initiatorState == Some(AbsentInHost)
      && Given(p.request) && RemoveStep(host, p.request) == Some(op)
    case ModifyHost(_, _, _) =>
      p.state == Present && ModifyWanted(p, host) && op == ModifyHost(host.id, p.newName, p.connectivity)
    case DeleteHost(id) => id == host.id && p.state == Absent
    case CreateHost(_, _, _, _) => false
  }

  /** The add step runs on an existing host when state is present and
      `initiator_state` is present-in-host. */
  function AddDecision(p: Params, host: Option<ObservedHost>): (r: Option<Op>)
    requires p.initiatorState.Some? ==> Given(p.request)
    ensures r.Some? ==> r.value.AddInitiators? && host.Some? && IssuedBy(p, host.value, r.value)
  {
    if p.state == Present && host.Some? && p.initiatorState == Some(PresentInHost) && Given(p.request)
    then AddStep(host.value, p.request) else None
  }

  /** The remove step runs on an existing host when state is present and
      `initiator_state` is absent-in-host. */
  function RemoveDecision(p: Params, host: Option<ObservedHost>): (r: Option<Op>)
    requires p.initiatorState.Some? ==> Given(p.request)
    ensures r.Some? ==> r.value.RemoveInitiators? && host.Some? && IssuedBy(p, host.value, r.value)
  {
    if p.state == Present && host.Some? && p.initiatorState == Some(AbsentInHost) && Given(p.request)
    then RemoveStep(host.value, p.request) else None
  }

  /** The modify step: one request carrying both supplied fields. */
  function ModifyDecision(p: Params, host: Option<ObservedHost>): (r: Option<Op>)
    ensures r.Some? ==> r.value.ModifyHost? && host.Some? && IssuedBy(p, host.value, r.value)
  {
    if p.state == Present && host.Some? && ModifyWanted(p, host.value)
    then Some(ModifyHost(host.value.id, p.newName, p.connectivity)) else None
  }

  /** The delete step: issued whenever state is absent and the host exists. */
  function DeleteDecision(p: Params, host: Option<ObservedHost>): (r: Option<Op>)
    ensures r.Some? <==> p.state == Absent && host.Some?
    ensures r.Some? ==> r.value == DeleteHost(host.value.id) && IssuedBy(p, host.value, r.value)
  {
    if p.state == Absent && host.Some? then Some(DeleteHost(host.value.id)) else None
  }

  /** The steps after create, run on the resolved host (if any): the os
      type check, then add, remove, modify and delete. */
  function ExistingPath(p: Params, host: Option<ObservedHost>, id: Option<HostId>): (r: Result<Outcome, Error>)
    requires p.initiatorState.Some? ==> Given(p.request)
    ensures r.Failure? <==> host.Some? && p.osType.Some? && p.osType.value != host.value.osType
    ensures r.Failure? ==> r.error == OsTypeImmutable
    ensures r.Success? ==> (r.value.changed <==> |r.value.ops| > 0)
    ensures r.Success? ==> InStepOrder(r.value.ops)
    ensures host.None? ==> r == Success(Outcome([], false, r.value.details))
    ensures r.Success? ==> forall op | op in r.value.ops :: host.Some? && IssuedBy(p, host.value, op)
    ensures r.Success? && host.Some? && p.state == Absent ==> r.value.ops == [DeleteHost(host.value.id)]
    ensures r.Success? ==> (p.state == Absent <==> r.value.details == NoDetails)
  {
    if host.Some? && p.osType.Some? && p.osType.value != host.value.osType then
      Failure(OsTypeImmutable)
    else
      var add := AddDecision(p, host);
      var remove := RemoveDecision(p, host);
      var update := ModifyDecision(p, host);
      var delete := DeleteDecision(p, host);
      var changed := add.Some? || remove.Some? || update.Some? || delete.Some?;
      var details := if p.state == Absent then NoDetails else FetchById(id);
      Success(Outcome(StepOps(add, remove, update, delete), changed, details))
  }

  /** One reconciliation pass of the host module. */
  function PerformModuleOperation(p: Params, lookup: Lookup): (r: Result<Outcome, Error>)
    requires LookupConsistent(p.ident, lookup)
    ensures NameGiven(p.ident) && lookup.Ambiguous? ==> r == Failure(AmbiguousName)
    ensures !(NameGiven(p.ident) && lookup.Ambiguous?) && p.initiatorState.Some? && !Given(p.request) ==>
      r == Failure(InitiatorsMissing)
    ensures !(NameGiven(p.ident) && lookup.Ambiguous?) && Given(p.request) && p.initiatorState.None? ==>
      r == Failure(InitiatorStateMissing)
    ensures r.Success? ==> (r.value.changed <==> |r.value.ops| > 0)
    ensures r.Success? ==> InStepOrder(r.value.ops)
    ensures r.Success? && p.request.Detailed? ==>
      forall i | 0 <= i < |p.request.items| :: !Offends(p.request.items[i])
    ensures r.Success? && HostOf(p.ident, lookup).Some? && p.osType.Some? ==>
      p.osType.value == HostOf(p.ident, lookup).value.osType
    ensures r.Success? ==> forall op | op in r.value.ops ::
      op.CreateHost? ==>
        && r.value.ops == [op]
        && HostOf(p.ident, lookup).None?
        && p.state == Present
        && p.ident == ByName(op.name)
    ensures r.Success? ==> forall op | op in r.value.ops ::
      !op.CreateHost? ==> HostOf(p.ident, lookup).Some? && IssuedBy(p, HostOf(p.ident, lookup).value, op)
    ensures NameGiven(p.ident) && lookup.NotFound? && p.state == Present && InitiatorArgsCheck(p).None? ==>
      r == CreatePath(p, p.ident.name)
    ensures !(NameGiven(p.ident) && lookup.Ambiguous?) && InitiatorArgsCheck(p).Some? ==>
      r == Failure(InitiatorArgsCheck(p).value)
    ensures && !(NameGiven(p.ident) && lookup.Ambiguous?) && InitiatorArgsCheck(p).None?
            && !(p.state == Present && HostOf(p.ident, lookup).None? && NameGiven(p.ident)) ==>
      r == ExistingPath(p, HostOf(p.ident, lookup), ResolvedId(p.ident, lookup))
    ensures r.Success? && p.state == Absent ==>
      r.value.details == NoDetails
      && r.value.ops == (if HostOf(p.ident, lookup).Some?
                         then [DeleteHost(HostOf(p.ident, lookup).value.id)] else [])
  {
    match ResolveHost(p.ident, lookup)
    case Failure(e) => Failure(e)
    case Success(host) =>
      var argsError := InitiatorArgsCheck(p);
      if argsError.Some? then Failure(argsError.value)
      else if p.state == Present && host.None? && NameGiven(p.ident) then
        CreatePath(p, p.ident.name)
      else
        ExistingPath(p, host, ResolvedId(p.ident, lookup))
  }

  /** The existing host already matches the parameters: the requested
      initiators are all present (present-in-host) or all absent
      (absent-in-host), and no supplied name or connectivity differs. */
  predicate Converged(p: Params, host: ObservedHost) {
    && (p.initiatorState == Some(PresentInHost) && Given(p.request) ==>
          Elems(RequestedNames(p.request)) <= Elems(ExistingNames(host)))
    && (p.initiatorState == Some(AbsentInHost) && Given(p.request) ==>
          RemoveSet(ExistingNames(host), RequestedNames(p.request)) == {})
    && !ModifyWanted(p, host)
  }

  /** On an existing host whose os type is not contested, a pass with state
      present issues no request, and reports no change, exactly when the
      host already matches the parameters. */
  lemma ExistingHostQuietIff(p: Params, host: ObservedHost, id: Option<HostId>)
    requires p.initiatorState.Some? ==> Given(p.request)
    requires p.state == Present
    requires p.osType.None? || p.osType.value == host.osType
    ensures ExistingPath(p, Some(host), id).Success?
    ensures ExistingPath(p, Some(host), id).value.ops == [] <==> Converged(p, host)
    ensures ExistingPath(p, Some(host), id).value.changed <==> !Converged(p, host)
  {
    var r := ExistingPath(p, Some(host), id);
    if r.value.ops == [] {
      assert AddDecision(p, Some(host)).None?;
      assert RemoveDecision(p, Some(host)).None?;
      assert ModifyDecision(p, Some(host)).None?;
    }
  }
}

=== FILE: repository.dfy ===
/** A model of the array the module talks to: its hosts by id, what the
    module's lookups report, and what each issued request does to the
    hosts. It gives the planner's requests a meaning, so that convergence
    (a second pass with the same parameters changes nothing) can be stated. */
module Repository {
  import opened Wrappers
  import opened SeqSets
  import opened HostTypes
  import opened Differ
  import opened Steps
  import opened Planner

  /** The array's hosts, keyed by host id. */
  type Array = map<HostId, ObservedHost>

  /** Every host is stored under its own id. */
  ghost predicate WellFormed(arr: Array) {
    forall k | k in arr :: arr[k].id == k
  }

  /** The ids of the hosts called `name`. */
  ghost function NamedIds(arr: Array, name: string): set<HostId> {
    set k | k in arr && arr[k].name == name
  }

  /** What the module's lookups report: by id, the host or nothing; by
      name, nothing, the one host of that name, or an ambiguity. */
  ghost function Observe(arr: Array, ident: Ident): Lookup {
    match ident
    case ById(id) => if id in arr then Found(arr[id]) else NotFound
    case ByName(name) =>
      var ids := NamedIds(arr, name);
      if |ids| == 0 then NotFound
      else if |ids| > 1 then Ambiguous
      else
        var k :| k in ids;
        Found(arr[k])
  }

  /** A request entry as the array records it. */
  function Stored(s: InitiatorSpec): HostInitiator {
    HostInitiator(s.portName, s.portType, s.chapSingleUsername, s.chapMutualUsername)
  }

  /** The connectivity the array gives a host created without one. */
  const DefaultConnectivity: Connectivity := LocalOnly

  /** One existing host after a request addressed to it. */
  function HostAfter(h: ObservedHost, op: Op): ObservedHost {
    match op
    case AddInitiators(_, added) => h.(initiators := h.initiators + Map(added, Stored))
    case RemoveInitiators(_, removed) =>
      h.(initiators := Filter(h.initiators, (i: HostInitiator) => i.portName !in removed))
    case ModifyHost(_, newName, connectivity) => Modified(h, newName, connectivity)
    case CreateHost(_, _, _, _) => h
    case DeleteHost(_) => h
  }

  /** The array after one request; a created host gets the id `newId`. */
  function ApplyOp(arr: Array, op: Op, newId: HostId): Array {
    match op
    case CreateHost(name, osType, initiators, connectivity) =>
      arr[newId := ObservedHost(newId, name, osType, Map(initiators, Stored),
                                connectivity.GetOr(DefaultConnectivity))]
    case DeleteHost(id) => arr - {id}
    case _ => if op.hostId in arr then arr[op.hostId := HostAfter(arr[op.hostId], op)] else arr
  }

  /** The array after a sequence of requests, issued in order. */
  function ApplyAll(arr: Array, ops: seq<Op>, newId: HostId): Array
    decreases |ops|
  {
    if |ops| == 0 then arr else ApplyAll(ApplyOp(arr, ops[0], newId), ops[1..], newId)
  }
}

=== FILE: scenarios.dfy ===
/** Concrete passes of the host module: typical requests and the edge
    cases the code has. */
module Scenarios {
  import opened Wrappers
  import opened HostTypes
  import opened Steps
  import opened SeqSets
  import opened Classifier
  import opened Differ
  import opened Validator
  import opened Planner

  // Short stand-ins for a WWN, a second WWN, an IQN and an NQN.
  const Wwn: string := "21:fc"
  const Wwn2: string := "21:ee"
  const Iqn: string := "iqn.a"
  const Nqn: string := "nqn.a"

  function NoChap(name: string, t: PortType): InitiatorSpec {
    InitiatorSpec(name, t, None, None, None, None)
  }

  function Existing(names: seq<string>): ObservedHost {
    ObservedHost("id-1", "h1", Windows,
                 seq(|names|, i requires 0 <= i < |names| => HostInitiator(names[i], FC, None, None)),
                 LocalOnly)
  }

  /** How the sample names classify. */
  lemma SampleClasses()
    ensures Classify(Wwn) == FC && Classify(Wwn2) == FC
    ensures Classify(Iqn) == ISCSI && Classify(Nqn) == NVMe
  {
    assert Wwn[0] == '2' && Wwn2[0] == '2';
    assert Iqn[0] == 'i' && Iqn[1] == 'q' && Iqn[2] == 'n';
    assert Nqn[0] == 'n' && Nqn[1] == 'q' && Nqn[2] == 'n';
  }

  /** Creating a host with one WWN: it is typed FC, one create request is
      issued and the pass reports a change. */
  lemma CreateWithFcInitiator()
    ensures PerformModuleOperation(
              Params(ByName("h1"), Some(Windows), Plain([Wwn]), Present, Some(PresentInHost), None, None),
              NotFound)
            == Success(Outcome([CreateHost("h1", Windows, [NoChap(Wwn, FC)], None)], true, FetchByName("h1")))
  {
    SampleClasses();
    assert Map([Wwn], PlainSpec) == [NoChap(Wwn, FC)];
    assert Map([Wwn], Classify) == [FC];
  }

  /** Asking for an initiator the host already has issues nothing. */
  lemma AddPresentInitiator()
    ensures PerformModuleOperation(
              Params(ByName("h1"), None, Plain([Wwn]), Present, Some(PresentInHost), None, None),
              Found(Existing([Wwn, Wwn2])))
            == Success(Outcome([], false, FetchById(Some("id-1"))))
  {
    var h := Existing([Wwn, Wwn2]);
    assert ExistingNames(h) == [Wwn, Wwn2];
    assert Elems([Wwn]) <= Elems(ExistingNames(h));
  }

  /** The remove step on a host holding {A, B} asked to remove {B, C}. */
  lemma RemoveStepIntersection()
    ensures RemoveStep(Existing([Wwn, Wwn2]), Plain([Wwn2, Iqn]))
            == Some(RemoveInitiators("id-1", [Wwn2]))
  {
    var h := Existing([Wwn, Wwn2]);
    assert ExistingNames(h) == [Wwn, Wwn2];
    assert Wwn[|Wwn| - 1] != Wwn2[|Wwn2| - 1] && Wwn[0] != Iqn[0];
    assert Wwn !in [Wwn2, Iqn] && Wwn2 in [Wwn2, Iqn];
    var keep := (x: string) => x in [Wwn2, Iqn];
    assert [Wwn, Wwn2][1..] == [Wwn2];
    assert Filter([Wwn2], keep) == [Wwn2];
    var kept := Filter([Wwn, Wwn2], keep);
    assert kept == [Wwn2];
    assert Distinct(kept) == [Wwn2];
  }

  /** Removing {B, C} from a host holding {A, B} removes B alone. */
  lemma RemoveIntersection()
    ensures PerformModuleOperation(
              Params(ByName("h1"), None, Plain([Wwn2, Iqn]), Present, Some(AbsentInHost), None, None),
              Found(Existing([Wwn, Wwn2])))
            == Success(Outcome([RemoveInitiators("id-1", [Wwn2])], true, FetchById(Some("id-1"))))
  {
    RemoveStepIntersection();
    var p := Params(ByName("h1"), None, Plain([Wwn2, Iqn]), Present, Some(AbsentInHost), None, None);
    var h := Existing([Wwn, Wwn2]);
    var m := RemoveInitiators("id-1", [Wwn2]);
    assert AddDecision(p, Some(h)) == None;
    assert RemoveDecision(p, Some(h)) == Some(m);
    assert ModifyDecision(p, Some(h)) == None;
    assert DeleteDecision(p, Some(h)) == None;
    assert Issued(Some(m)) == [m];
    assert StepOps(None, Some(m), None, None) == [m];
    assert ExistingPath(p, Some(h), Some("id-1")) == Success(Outcome([m], true, FetchById(Some("id-1"))));
    assert ResolveHost(p.ident, Found(h)) == Success(Some(h));
    assert InitiatorArgsCheck(p) == None;
  }

  /** Changing the os type of an existing host stops the pass. */
  lemma OsTypeChangeRefused()
    ensures PerformModuleOperation(
              Params(ByName("h1"), Some(Linux), NoInitiators, Present, None, None, None),
              Found(Existing([Wwn])))
            == Failure(OsTypeImmutable)
  {
  }

  /** Asking for an absent host that does not exist changes nothing. */
  lemma AbsentHostStaysAbsent()
    ensures PerformModuleOperation(
              Params(ByName("h1"), None, NoInitiators, Absent, None, None, None),
              NotFound)
            == Success(Outcome([], false, NoDetails))
  {
  }

  /** The create path refuses a plain initiator list spanning iSCSI, NVMe
      and FC. */
  lemma ThreeWayMixRefused()
    ensures PerformModuleOperation(
              Params(ByName("h1"), Some(Linux), Plain([Iqn, Nqn, Wwn]), Present, Some(PresentInHost), None, None),
              NotFound)
            == Failure(ProtocolMix)
  {
    SampleClasses();
    var p := Params(ByName("h1"), Some(Linux), Plain([Iqn, Nqn, Wwn]), Present, Some(PresentInHost), None, None);
    assert Map([Iqn, Nqn, Wwn], Classify) == [ISCSI, NVMe, FC];
    assert CreateStep(p, "h1") == Failure(ProtocolMix);
  }

  /** A two-protocol mix, iSCSI with FC, is accepted by create. */
  lemma TwoWayMixAccepted()
    ensures PerformModuleOperation(
              Params(ByName("h1"), Some(Linux), Plain([Iqn, Wwn]), Present, Some(PresentInHost), None, None),
              NotFound).Success?
  {
    SampleClasses();
    var p := Params(ByName("h1"), Some(Linux), Plain([Iqn, Wwn]), Present, Some(PresentInHost), None, None);
    assert Map([Iqn, Wwn], Classify) == [ISCSI, FC];
    assert CreateStep(p, "h1").Success?;
  }

  /** Validation reads the caller's `port_type` only: a WWN with a CHAP
      username and no `port_type` passes, and create then sends it typed FC
      with the CHAP fields still attached. */
  lemma UntypedChapReachesCreate()
    ensures PerformModuleOperation(
              Params(ByName("h1"), Some(Linux),
                     Detailed([InitiatorDetail(Wwn, None, Some("user"), Some("secret123456"), None, None)]),
                     Present, Some(PresentInHost), None, None),
              NotFound)
            == Success(Outcome([CreateHost("h1", Linux,
                                           [InitiatorSpec(Wwn, FC, Some("user"), Some("secret123456"), None, None)],
                                           None)],
                               true, FetchByName("h1")))
    ensures PerformModuleOperation(
              Params(ByName("h1"), Some(Linux),
                     Detailed([InitiatorDetail(Wwn, Some(FC), Some("user"), None, None, None)]),
                     Present, Some(PresentInHost), None, None),
              NotFound)
            == Failure(ChapNotSupported(FC))
  {
    SampleClasses();
    var d := InitiatorDetail(Wwn, None, Some("user"), Some("secret123456"), None, None);
    assert !Offends(d);
    assert Validate([d]) == None;
    assert Map([d], CreateSpec) == [CreateSpec(d)];
    var e := InitiatorDetail(Wwn, Some(FC), Some("user"), None, None, None);
    assert Offends(e);
  }

  /** The add step re-types by prefix and drops CHAP from a non-`iqn` name,
      whatever `port_type` says. */
  lemma AddRetypesByPrefix()
    ensures AddStep(Existing([]), Detailed([InitiatorDetail(Wwn, Some(ISCSI), Some("user"), None, None, None)]))
            == Some(AddInitiators("id-1", [NoChap(Wwn, FC)]))
  {
    SampleClasses();
    var d := InitiatorDetail(Wwn, Some(ISCSI), Some("user"), None, None, None);
    assert ExistingNames(Existing([])) == [];
    assert RequestedNames(Detailed([d])) == [Wwn];
    assert Wwn !in Elems([]);
    var kept := Filter([d], (x: InitiatorDetail) => x.portName !in []);
    assert kept == [d];
    assert !("iqn" <= Wwn);
    assert Map(kept, AddSpec) == [NoChap(Wwn, FC)];
  }

  /** A rename by `host_name` cannot be repeated: on the second pass the old
      name no longer resolves, the host looks absent, and `new_name` is
      refused. */
  lemma RenameByNameNotRepeatable()
    ensures PerformModuleOperation(
              Params(ByName("h1"), None, NoInitiators, Present, None, Some("h2"), None),
              Found(Existing([Wwn])))
            == Success(Outcome([ModifyHost("id-1", Some("h2"), None)], true, FetchById(Some("id-1"))))
    ensures PerformModuleOperation(
              Params(ByName("h1"), None, NoInitiators, Present, None, Some("h2"), None),
              NotFound)
            == Failure(NewNameOnAbsentHost)
  {
    var h := Existing([Wwn]);
    var p := Params(ByName("h1"), None, NoInitiators, Present, None, Some("h2"), None);
    assert IsModifyRequired(h, Some("h2"), None);
    assert ModifyWanted(p, h);
    var m := ModifyHost("id-1", Some("h2"), None);
    assert StepOps(None, None, Some(m), None) == [m];
  }
}

=== FILE: seqsets.dfy ===
/** Sequence helpers that give Python's `set(...)` and `list(set(...))`
    conversions a deterministic meaning. */
module SeqSets {

  /** The elements of a sequence as a set (Python's `set(s)`). */
  function Elems<T>(s: seq<T>): set<T> {
    set x | x in s
  }

  lemma ElemsConcat<T>(a: seq<T>, b: seq<T>)
    ensures Elems(a + b) == Elems(a) + Elems(b)
  {
    assert forall x | x in a + b :: x in a || x in b;
  }

  /** No element occurs twice. */
  predicate NoDup<T(==)>(s: seq<T>) {
    forall i, j | 0 <= i < j < |s| :: s[i] != s[j]
  }

  /** The elements of `s` that satisfy `keep`, in their original order. */
  function Filter<T>(s: seq<T>, keep: T -> bool): (r: seq<T>)
    ensures |r| <= |s|
    ensures forall x | x in r :: x in s && keep(x)
    ensures forall x | x in s && keep(x) :: x in r
  {
    if |s| == 0 then []
    else if keep(s[0]) then [s[0]] + Filter(s[1..], keep)
    else Filter(s[1..], keep)
  }

  /** `s` with every repeated element dropped after its first occurrence:
      a list conversion of `set(s)` whose order is fixed. */
  function Distinct<T(==)>(s: seq<T>): (r: seq<T>)
    ensures Elems(r) == Elems(s)
    ensures NoDup(r)
    ensures |r| <= |s|
  {
    if |s| == 0 then []
    else
      var init := s[..|s| - 1];
      var last := s[|s| - 1];
      assert s == init + [last];
      ElemsConcat(init, [last]);
      var d := Distinct(init);
      if last in init then d
      else
        assert last !in Elems(d);
        d + [last]
  }

  /** `f` applied to every element of `s`. */
  function Map<A, B>(s: seq<A>, f: A -> B): (r: seq<B>)
    ensures |r| == |s|
    ensures forall i | 0 <= i < |s| :: r[i] == f(s[i])
  {
    seq(|s|, i requires 0 <= i < |s| => f(s[i]))
  }
}

=== FILE: steps.dfy ===
/** The per-step decisions of the host module: create, add initiators,
    remove initiators and the rename/connectivity check. Each step yields the
    request it would issue, if any; the step's `changed` result is whether it
    issues one. */
module Steps {
  import opened Wrappers
  import opened SeqSets
  import opened HostTypes
  import opened Classifier
  import opened Differ

  /** A plain `initiators` entry as sent to the array: the name, typed by
      prefix, with no CHAP fields. */
  function PlainSpec(name: string): InitiatorSpec {
    InitiatorSpec(name, Classify(name), None, None, None, None)
  }

  /** A detailed entry as sent by add-initiators: re-typed by prefix,
      whatever `port_type` says; the four CHAP fields are copied only for an
      `iqn` name. */
  function AddSpec(d: InitiatorDetail): InitiatorSpec {
    if "iqn" <= d.portName then
      InitiatorSpec(d.portName, ISCSI, d.chapSingleUsername, d.chapSinglePassword,
                    d.chapMutualUsername, d.chapMutualPassword)
    else
      InitiatorSpec(d.portName, Classify(d.portName), None, None, None, None)
  }

  /** A detailed entry as sent by create: an explicit `port_type` is kept and
      only an unset one is inferred from the name; CHAP fields go as given. */
  function CreateSpec(d: InitiatorDetail): InitiatorSpec {
    InitiatorSpec(d.portName, d.portType.GetOr(Classify(d.portName)),
                  d.chapSingleUsername, d.chapSinglePassword,
                  d.chapMutualUsername, d.chapMutualPassword)
  }

  /** The create path's mix check: iSCSI, FC and NVMe all occur. */
  predicate AllThreeProtocols(types: seq<PortType>) {
    ISCSI in types && FC in types && NVMe in types
  }

  /** `create_host`: the create request for host `name`. It fails without an
      os type; on the plain `initiators` path it also fails when the
      classified names span all three protocols. The detailed path has no
      mix check. */
  function CreateStep(p: Params, name: string): (r: Result<Op, Error>)
    requires Given(p.request)
    ensures r == Failure(OsTypeMissing) <==> p.osType.None?
    ensures r == Failure(ProtocolMix) <==>
      && p.osType.Some? && p.request.Plain?
      && (exists i | 0 <= i < |p.request.names| :: Classify(p.request.names[i]) == ISCSI)
      && (exists i | 0 <= i < |p.request.names| :: Classify(p.request.names[i]) == FC)
      && (exists i | 0 <= i < |p.request.names| :: Classify(p.request.names[i]) == NVMe)
    ensures r.Failure? ==> r.error == OsTypeMissing || r.error == ProtocolMix
    ensures r.Success? ==>
      && r.value.CreateHost?
      && r.value.name == name
      && p.osType == Some(r.value.osType)
      && r.value.connectivity == p.connectivity
      && SpecNames(r.value.initiators) == RequestedNames(p.request)
    ensures r.Success? && p.request.Plain? ==>
      forall i | 0 <= i < |r.value.initiators| ::
        r.value.initiators[i].portType == Classify(r.value.initiators[i].portName)
        && !HasChap(r.value.initiators[i])
    ensures r.Success? && p.request.Detailed? ==>
      forall i | 0 <= i < |r.value.initiators| ::
        var d := p.request.items[i];
        && (d.portType.Some? ==> r.value.initiators[i].portType == d.portType.value)
        && (d.portType.None? ==> r.value.initiators[i].portType == Classify(d.portName))
        && r.value.initiators[i].chapSingleUsername == d.chapSingleUsername
        && r.value.initiators[i].chapMutualUsername == d.chapMutualUsername
        && r.value.initiators[i].chapSinglePassword == d.chapSinglePassword
        && r.value.initiators[i].chapMutualPassword == d.chapMutualPassword
  {
    if p.osType.None? then Failure(OsTypeMissing)
    else if p.request.Plain? && |p.request.names| > 0 then
      var names := p.request.names;
      var specs := Map(names, PlainSpec);
      var types := Map(names, Classify);
      if AllThreeProtocols(types) then Failure(ProtocolMix)
      else Success(CreateHost(name, p.osType.value, specs, p.connectivity))
    else
      var items := if p.request.Detailed? then p.request.items else [];
      Success(CreateHost(name, p.osType.value, Map(items, CreateSpec), p.connectivity))
  }

  /** The typed add list: the requested entries whose names the host lacks.
      Plain names appear once each; every detailed entry with a new name
      appears, re-typed by prefix. */
  function AddList(existing: seq<string>, req: Request): (r: seq<InitiatorSpec>)
    ensures Elems(SpecNames(r)) == AddSet(existing, RequestedNames(req))
    ensures forall i | 0 <= i < |r| :: r[i].portType == Classify(r[i].portName)
    ensures forall i | 0 <= i < |r| :: HasChap(r[i]) ==> "iqn" <= r[i].portName
    ensures req.Plain? ==> NoDup(SpecNames(r)) && forall i | 0 <= i < |r| :: !HasChap(r[i])
    ensures req.Detailed? ==>
      forall d | d in req.items && d.portName !in existing :: AddSpec(d) in r
    ensures req.Detailed? ==>
      forall s | s in r :: exists d | d in req.items :: d.portName !in existing && s == AddSpec(d)
  {
    match req
    case NoInitiators => []
    case Plain(names) =>
      var r := Map(AddNames(existing, names), PlainSpec);
      AddListPlain(existing, names, r);
      r
    case Detailed(items) =>
      var kept := Filter(items, (d: InitiatorDetail) => d.portName !in existing);
      var r := Map(kept, AddSpec);
      AddListDetailedNames(existing, items, kept, r);
      AddListDetailedEntries(existing, items, kept, r);
      r
  }

  lemma AddListPlain(existing: seq<string>, names: seq<string>, r: seq<InitiatorSpec>)
    requires r == Map(AddNames(existing, names), PlainSpec)
    ensures Elems(SpecNames(r)) == AddSet(existing, names)
    ensures NoDup(SpecNames(r))
    ensures forall i | 0 <= i < |r| :: r[i].portType == Classify(r[i].portName) && !HasChap(r[i])
  {
    assert SpecNames(r) == AddNames(existing, names);
  }

  lemma AddListDetailedEntries(existing: seq<string>, items: seq<InitiatorDetail>,
                               kept: seq<InitiatorDetail>, r: seq<InitiatorSpec>)
    requires kept == Filter(items, (d: InitiatorDetail) => d.portName !in existing)
    requires r == Map(kept, AddSpec)
    ensures forall i | 0 <= i < |r| :: r[i].portType == Classify(r[i].portName)
    ensures forall i | 0 <= i < |r| :: HasChap(r[i]) ==> "iqn" <= r[i].portName
    ensures forall d | d in items && d.portName !in existing :: AddSpec(d) in r
    ensures forall s | s in r :: exists d | d in items :: d.portName !in existing && s == AddSpec(d)
  {
    forall d | d in items && d.portName !in existing ensures AddSpec(d) in r {
      var i :| 0 <= i < |kept| && kept[i] == d;
      assert r[i] == AddSpec(d);
    }
    forall s | s in r ensures exists d | d in items :: d.portName !in existing && s == AddSpec(d) {
      var i :| 0 <= i < |r| && r[i] == s;
      assert kept[i] in kept;
    }
  }

  lemma AddListDetailedNames(existing: seq<string>, items: seq<InitiatorDetail>,
                             kept: seq<InitiatorDetail>, r: seq<InitiatorSpec>)
    requires kept == Filter(items, (d: InitiatorDetail) => d.portName !in existing)
    requires r == Map(kept, AddSpec)
    ensures Elems(SpecNames(r)) == AddSet(existing, RequestedNames(Detailed(items)))
  {
    var requested := RequestedNames(Detailed(items));
    forall x | x in Elems(SpecNames(r)) ensures x in AddSet(existing, requested) {
      var i :| 0 <= i < |r| && SpecNames(r)[i] == x;
      assert kept[i] in items;
      var j :| 0 <= j < |items| && items[j] == kept[i];
      assert requested[j] == x;
    }
    forall x | x in AddSet(existing, requested) ensures x in Elems(SpecNames(r)) {
      var j :| 0 <= j < |requested| && requested[j] == x;
      assert items[j] in kept;
      var i :| 0 <= i < |kept| && kept[i] == items[j];
      assert SpecNames(r)[i] == x;
    }
  }

  /** `add_host_initiators`: nothing when every requested name is already on
      the host; otherwise one add request carrying the typed add list, which
      is then never empty. */
  function AddStep(host: ObservedHost, req: Request): (r: Option<Op>)
    requires Given(req)
    ensures r.None? <==> Elems(RequestedNames(req)) <= Elems(ExistingNames(host))
    ensures r.Some? ==>
      && r.value.AddInitiators?
      && r.value.hostId == host.id
      && |r.value.added| > 0
      && Elems(SpecNames(r.value.added)) == AddSet(ExistingNames(host), RequestedNames(req))
      && (forall i | 0 <= i < |r.value.added| ::
            r.value.added[i].portType == Classify(r.value.added[i].portName))
      && (forall i | 0 <= i < |r.value.added| ::
            HasChap(r.value.added[i]) ==> "iqn" <= r.value.added[i].portName)
    ensures r.Some? && req.Detailed? ==>
      forall d | d in req.items && d.portName !in ExistingNames(host) :: AddSpec(d) in r.value.added
    ensures r.Some? && req.Detailed? ==>
      forall s | s in r.value.added ::
        exists d | d in req.items :: d.portName !in ExistingNames(host) && s == AddSpec(d)
  {
    var existing := ExistingNames(host);
    if Elems(RequestedNames(req)) <= Elems(existing) then None
    else
      var added := AddList(existing, req);
      AddSetEmptyIffSubset(existing, RequestedNames(req));
      if |added| > 0 then Some(AddInitiators(host.id, added)) else None
  }

  /** `remove_host_initiators`: nothing when the host has no initiators;
      otherwise one remove request, by bare name, for the requested names the
      host has, issued exactly when there is at least one. */
  function RemoveStep(host: ObservedHost, req: Request): (r: Option<Op>)
    requires Given(req)
    ensures |host.initiators| == 0 ==> r.None?
    ensures r.Some? <==> RemoveSet(ExistingNames(host), RequestedNames(req)) != {}
    ensures r.Some? ==>
      && r.value.RemoveInitiators?
      && r.value.hostId == host.id
      && Elems(r.value.removed) == RemoveSet(ExistingNames(host), RequestedNames(req))
      && NoDup(r.value.removed)
  {
    var existing := ExistingNames(host);
    if |existing| == 0 then
      assert Elems(existing) == {};
      None
    else
      var removed := RemoveNames(existing, RequestedNames(req));
      assert |removed| > 0 ==> removed[0] in Elems(removed);
      if |removed| > 0 then Some(RemoveInitiators(host.id, removed)) else None
  }

  /** The host as a modify request with these fields would leave it: a
      supplied field replaces the host's value, an absent one leaves it. */
  function Modified(host: ObservedHost, newName: Option<string>,
                    connectivity: Option<Connectivity>): ObservedHost {
    host.(name := newName.GetOr(host.name),
          connectivity := connectivity.GetOr(host.connectivity))
  }

  /** `is_modify_required`: a modify is needed exactly when issuing it would
      change the host. A field left as `None` never counts as a difference. */
  function IsModifyRequired(host: ObservedHost, newName: Option<string>,
                            connectivity: Option<Connectivity>): (r: bool)
    ensures r <==> Modified(host, newName, connectivity) != host
    ensures newName.None? && connectivity.None? ==> !r
  {
    var nameDiffers := newName.Some? && host.name != newName.value;
    var connectivityDiffers := connectivity.Some? && host.connectivity != connectivity.value;
    nameDiffers || connectivityDiffers
  }
}

=== FILE: validator.dfy ===
/** `validate_initiators`: CHAP credentials are refused on initiators whose
    caller-supplied port type is FC or NVMe. */
module Validator {
  import opened Wrappers
  import opened HostTypes

  /** An entry the validator rejects: a non-empty single or mutual CHAP
      username together with an explicit port type of FC or NVMe. An entry
      whose port type is left unset is never rejected, whatever its name. */
  predicate Offends(d: InitiatorDetail) {
    && (Truthy(d.chapSingleUsername) || Truthy(d.chapMutualUsername))
    && (d.portType == Some(FC) || d.portType == Some(NVMe))
  }

  /** The error for the first offending entry, or `None` when every entry
      passes. */
  function Validate(items: seq<InitiatorDetail>): (r: Option<Error>)
    ensures r.None? <==> forall i | 0 <= i < |items| :: !Offends(items[i])
    ensures r.Some? ==> exists i | 0 <= i < |items| ::
      && Offends(items[i])
      && r.value == ChapNotSupported(items[i].portType.value)
      && forall j | 0 <= j < i :: !Offends(items[j])
  {
    if |items| == 0 then None
    else if Offends(items[0]) then Some(ChapNotSupported(items[0].portType.value))
    else
      var rest := Validate(items[1..]);
      assert forall j | 1 <= j < |items| :: items[j] == items[1..][j - 1];
      rest
  }

  /** CHAP on an entry typed iSCSI, or left untyped, is never refused: a
      list of such entries passes whatever their CHAP fields hold, and the
      reported error never names iSCSI. */
  lemma ValidateAcceptsIscsiChap(items: seq<InitiatorDetail>)
    ensures (forall i | 0 <= i < |items| :: items[i].portType == Some(ISCSI) || items[i].portType.None?)
            ==> Validate(items).None?
    ensures Validate(items) != Some(ChapNotSupported(ISCSI))
  {
  }
}

=== FILE: wrappers.dfy ===
/** An optional value, for the Python `None` / value distinction, and a
    result that holds either a success payload or an error, for the
    module's `fail_json` exits. */
module Wrappers {

  datatype Option<T> = None | Some(value: T) {

    /** The wrapped value, or `default` when there is none. */
    function GetOr(default: T): T {
      match this
      case Some(v) => v
      case None => default
    }
  }

  datatype Result<T, E> = Success(value: T) | Failure(error: E)
}
